=== FILE: README.md ===
# Registration form: a Dafny model

This project models the client-side logic of a single-page user registration
form (`script.js`). The page has these parts:

- a static location catalog of countries, each with a dialing code, states and cities;
- three dependent selects (country, state, city) that cascade;
- a validator per field, each writing a message into an error slot;
- a password-strength label;
- a submit button gated by a "required fields valid" predicate;
- a submit handler, a reset handler and a success modal.

The page is modelled as one immutable record, `Form.Form`, with these parts:

- the field values;
- the eight error slots;
- the two dependent selects;
- the strength label;
- the alert banner;
- the modal;
- the disabled flag of the submit button.

Each handler the page registers is a pure function over that record, and
`Form.Step(form, event)` dispatches an event to its handler.

The modules follow the structure of the script:

| file | module | contents |
|---|---|---|
| `text.dfy` | `Text` | `String.prototype.trim`, `toLowerCase`, `startsWith`, `split` with a one-character separator, and the character classes `\s` and `\d` |
| `location.dfy` | `Location` | the catalog as ordered association lists (object-literal key order), and lookup |
| `strength.dfy` | `Strength` | `passwordStrength` |
| `validators.dfy` | `Validators` | the eight field validators, with the email and phone regular expressions as explicit predicates |
| `form.dfy` | `Form` | the form record, the submit gate, the `updateStates`/`updateCities` cascade, the submit, reset and close handlers, and the step function |
| `form_properties.dfy` | `FormProperties` | properties that relate several handlers or events |

Each regular expression is modelled twice:

- a ghost predicate that says literally what the pattern matches, as an
  existentially quantified decomposition of the string;
- an executable check.

A lemma proves the two equivalent in both directions.

Three behaviours of the code are modelled as written:

- The submit gate requires the last name, as the code does.
- The empty password is labelled "Weak": `validatePassword` calls
  `renderStrength("")` and does not restore the placeholder.
- The gate is recomputed only where a validator runs: by the handlers of
  the seven watched inputs, the country select (which revalidates the
  phone), submit and reset. Ticking or unticking a gender, typing an age
  or an address, and choosing a state or a city leave the button as it
  was.
  - `FormProperties.GenderTickLeavesGateStale` shows a form where this
    keeps the button disabled although every required field is valid.
  - `FormProperties.GenderUntickLeavesButtonEnabled` shows the opposite:
    unticking every gender leaves the button enabled, and the submission
    it lets through is refused with the gender message.

What an enabled button does guarantee, on every form the model reaches
from the loaded page, is `FormProperties.EnabledMeansFilled`: both names,
the email and the phone are not blank, the email and phone slots are
empty, and the terms are accepted.

- In particular a blank last name always leaves the button disabled in
  the model (`FormProperties.BlankLastNameKeepsButtonDisabled`).
- The model leaves out the browser's native reset. On the page the
  guarantee therefore holds only until the reset button is first clicked
  (`FormProperties.NativeResetLeavesButtonEnabled`).
- The end-to-end tests' last-name scenario never clicks reset, and clicks
  submit with a blank last name. In such a session the click reaches a
  disabled button, and no `submit` event fires.
  `FormProperties.BlankLastNameIsReported` states what the submit handler
  does with such values. On the page it is reached only after a native
  reset: fill the form, click reset, then click submit.

## Model

| member | source | states |
|---|---|---|
| Location.Lookup | script.js:129 | indexing an object literal by key: nothing exactly when the key is absent, otherwise the value of the first entry with that key |
| Location.Countries | script.js:110-116 | the country select lists "India" then "United States", in catalog order, and lists exactly the catalog countries |
| Location.LookupUnique | script.js:2-17 | with unique keys, looking up any entry's key finds that entry's value |
| Location.CatalogWellFormed | script.js:2-17 | the catalog's keys are unique at both levels, every country has a state and every state has a city |
| Location.DialingCode | script.js:183 | a country's dialing code is the one in its catalog entry, and is a `+` followed by digits |
| Location.StatesOf | script.js:129 | a country's states are the keys of its catalog entry, in order, and none for an unknown or unset country |
| Location.CitiesOf | script.js:145 | a state's cities are the catalog list of that state of that country, and none for a state not offered |
| Location.EveryCountryHasStatesAndCities | script.js:2-17 | every country offered leads to a non-empty state list, and every state offered to a non-empty city list |
| Text.Trim | script.js:155 | trimming removes exactly the leading and trailing whitespace: the result is a slice of the input with only whitespace before and after it, its ends are not whitespace, it is empty exactly when the input is all whitespace, and an input without outer whitespace is unchanged |
| Text.TrimIdempotent | script.js:155 | trimming twice is trimming once |
| Text.ToLower | script.js:167 | lower-casing keeps the length, maps every upper-case letter to its lower-case letter and keeps every other character |
| Text.ToLowerKeepsSpaces | script.js:167 | lower-casing keeps every white-space character where it was and makes no other character white space, and leaves a string without upper-case ASCII letters unchanged |
| Text.Split | script.js:170 | splitting gives at least one field, no field contains the separator, and joining the fields with the separator gives back the input |
| Strength.Score | script.js:82-87 | the score counts the criteria met: at most five, five exactly when all are met, zero exactly when none is |
| Strength.CriteriaOf | script.js:82-86 | every character meets one of the four character criteria, so a password meets one of them exactly when it is not empty, and a long password always meets one |
| Strength.PasswordStrength | script.js:80-92 | weak for at most two criteria met, medium for three or four, and strong exactly when all five criteria are met |
| Strength.StrengthMonotone | script.js:80-92 | a password that meets every criterion another meets is never labelled lower |
| Strength.EmptyPasswordIsWeak | script.js:205-206 | the empty password meets no criterion and is labelled weak |
| Strength.SampleStrengths | script.js:80-92 | "abc" is weak, "abcD1234" medium and "StrongPass1!" strong |
| Validators.ValidateFirstName | script.js:153-157 | the first name is accepted exactly when it holds a non-whitespace character, and otherwise gets the required message |
| Validators.ValidateLastName | script.js:159-163 | the last name is accepted exactly when it holds a non-whitespace character, and otherwise gets the required message |
| Validators.EmailSyntaxMatchesPattern | script.js:168 | the executable email check accepts exactly the strings the email pattern matches |
| Validators.EmailSplitFields | script.js:170 | for a string the email pattern matches, splitting at `@` gives the local part and the domain, and the domain is what follows the `@` |
| Validators.EmailDomain | script.js:170 | the domain holds no `@`; it is empty when the value has no `@`, and otherwise it is the text after the first `@` up to the second `@` or the end |
| Validators.ValidateEmail | script.js:165-175 | the email verdict is one of: accepted, invalid, disposable |
| Validators.EmailValidation | script.js:165-175 | the email is invalid exactly when its trimmed, lower-cased form does not match the pattern; for a match it is disposable exactly when the domain is on the denylist; it is accepted exactly when it matches on a domain off the denylist |
| Validators.PhoneSyntaxMatchesPattern | script.js:189 | the executable phone check accepts exactly the strings matching `+`, one to three digits, an optional whitespace character, then six to fifteen digits |
| Validators.ValidatePhone | script.js:177-193 | the phone is "required" exactly when it is blank; a non-blank phone without the selected country's code gets the prefix message |
| Validators.PhoneValidation | script.js:177-193 | the checks run in order: the phone is "invalid" exactly when it is non-blank, carries the code and does not match the pattern, and accepted exactly when it also matches |
| Validators.PhoneMessagesDistinct | script.js:185 | a prefix message for a code ending in a digit is distinct from the other phone messages |
| Validators.ValidateGender | script.js:195-200 | the gender group is accepted exactly when some gender is ticked |
| Validators.ValidatePassword | script.js:202-213 | the password is accepted exactly when it is empty or at least eight characters long |
| Validators.ValidateConfirmPassword | script.js:215-223 | an error exactly when the password is set and the confirmation differs from it: "confirm" when the confirmation is empty, "mismatch" otherwise |
| Validators.ValidateTerms | script.js:225-229 | the terms are accepted exactly when the box is checked |
| Form.Gate | script.js:231-244 | an open gate means the first name, last name, email and phone are all not blank |
| Form.GateMeansRequiredFieldsValid | script.js:231-244 | with the email and phone slots holding their validators' verdicts, the gate is open exactly when the first name, last name, email, phone, gender and terms all validate |
| Form.GateIgnoresPasswords | script.js:231-244 | the gate reads neither the password, nor the confirmation, nor any slot other than email and phone |
| Form.UpdateStates | script.js:118-134 | the state select offers the country's states in catalog order and is enabled exactly when a country is set; state and city are cleared; the city select is emptied and disabled |
| Form.UpdateCities | script.js:136-150 | the city select is enabled exactly when a country and a state are set, offers that state's cities, and is emptied otherwise; the city is cleared |
| Form.ValidateAll | script.js:271-278 | values that pass all eight validators also open the gate |
| Form.ValidateAllAcceptsExactly | script.js:271-282 | running all eight validators leaves no error slot set exactly on acceptable values |
| Form.SubmitForm | script.js:267-299 | a refused submission keeps the values, fills every slot with its verdict and shows the error banner; an accepted one shows the success banner and modal, clears every value and slot, disables both dependent selects and restores the placeholder label |
| Form.ResetForm | script.js:305-314 | the reset handler clears every slot, the banner and the label, rebuilds the state select for the selected country, and recomputes the gate with every slot empty |
| Form.Loaded | script.js:247-265 | on load the form is empty, the dependent selects are disabled and the submit button is disabled |
| Form.ChangeCountry | script.js:260 | a country change clears state and city, rebuilds the state select, empties and disables the city select, revalidates the phone against the new country and recomputes the gate |
| Form.ChangeState | script.js:261 | a state change clears the city and offers that state's cities, enabled exactly for a real state, and leaves the slots and the button as they were |
| Form.Watched | script.js:252-258 | the input handlers with a validator recompute the gate from the new values and slots, and leave the banner alone |
| Form.Edit | script.js:252-258 | age, address and gender changes keep the slots and the button as they were; every other input recomputes the gate |
| Form.Step | script.js:247-314 | every event keeps the selects consistent with the catalog and with the selected values |
| Form.Run | script.js:247-314 | any sequence of events keeps the selects consistent |
| FormProperties.LoadedEnabledMeansFilled | script.js:263-264 | on the loaded page an enabled button would guarantee the required texts; it is disabled |
| FormProperties.CountryChangeKeepsEnabledMeansFilled | script.js:260 | a country change keeps the enabled-button guarantee, because it recomputes the gate |
| FormProperties.StateChangeKeepsEnabledMeansFilled | script.js:261 | a state change keeps the guarantee: it changes no value and no slot the guarantee reads |
| FormProperties.CityChangeKeepsEnabledMeansFilled | script.js:247-265 | a city choice keeps the guarantee: no listener runs |
| FormProperties.ButtonsKeepEnabledMeansFilled | script.js:267-314 | submitting, resetting and closing the modal keep the guarantee |
| FormProperties.EditKeepsEnabledMeansFilled | script.js:252-258 | typing, ticking and toggling keep the guarantee |
| FormProperties.StepKeepsEnabledMeansFilled | script.js:231-244 | every event keeps the guarantee that an enabled button means both names, email and phone filled, their slots empty and the terms accepted |
| FormProperties.RunKeepsEnabledMeansFilled | script.js:247-314 | any sequence of events keeps the guarantee |
| FormProperties.BlankLastNameKeepsButtonDisabled | script.js:233-243 | after any events from the loaded page, a blank last name leaves the submit button disabled |
| FormProperties.NativeResetLeavesButtonEnabled | script.js:305-314 | if the browser emptied the values after the reset handler recomputed the gate on a filled form, the button would stay enabled on a blank last name, breaking the enabled-button guarantee |
| FormProperties.NativeResetLeavesStateSelectEnabled | script.js:305-314 | if the browser emptied the values after the reset handler rebuilt the state select for a chosen country, the state select would stay enabled with no country chosen, so the select invariant would fail |
| FormProperties.EmailInputChangesOnlyEmail | script.js:254 | typing an email changes that value and slot only, and recomputes the gate |
| FormProperties.PhoneInputChangesOnlyPhone | script.js:255 | typing a phone changes that value and slot only, judged against the selected country, and recomputes the gate |
| FormProperties.FirstNameInputChangesOnlyFirstName | script.js:252 | typing a first name changes that value and slot only, and recomputes the gate |
| FormProperties.LastNameInputChangesOnlyLastName | script.js:253 | typing a last name changes that value and slot only, and recomputes the gate |
| FormProperties.TermsChangeChangesOnlyTerms | script.js:258 | toggling the terms changes that value and slot only, and recomputes the gate |
| FormProperties.ConfirmInputChangesOnlyConfirmation | script.js:257 | typing the confirmation changes that value and slot only, judged against the current password |
| FormProperties.PasswordInputRevalidatesConfirmation | script.js:256 | a password change revalidates the password and the confirmation and shows the new strength; the empty password shows "Weak" with both slots clear |
| FormProperties.MatchingClearsConfirmationError | script.js:215-223 | typing the confirmation equal to the password, or the password equal to the confirmation, clears the confirmation error |
| FormProperties.AlertChangesOnlyOnSubmitOrReset | script.js:75-78 | only submitting and the reset button change the banner |
| FormProperties.UnwatchedChangesKeepGate | script.js:247-265 | age, address, gender and city changes run no validator: every slot and the gate stay as they were |
| FormProperties.GenderChangeChangesOnlyGender | script.js:247-265 | ticking genders changes that value only, not a slot and not the gate |
| FormProperties.GenderUntickLeavesButtonEnabled | script.js:195-200 | unticking every gender leaves an enabled button enabled, and the submission it lets through is refused with the gender message and the error banner |
| FormProperties.GenderTickLeavesGateStale | script.js:231-244 | with gender the only required field missing, ticking one leaves the button disabled although the gate on the new values is open |
| FormProperties.CountryChangeClearsSelection | script.js:260 | a country change clears state and city, empties and disables the city select, enables the state select exactly for a real country, and revalidates the phone against the new code |
| FormProperties.StateChangeOffersItsCities | script.js:261 | choosing a state enables the city select with that state's cities; choosing the placeholder empties and disables it |
| FormProperties.CloseModalOnlyHides | script.js:301-303 | closing the modal hides it and changes nothing else |
| FormProperties.SuccessfulSubmitResetsForm | script.js:289-298 | submitting acceptable values returns the form to its loaded state, with the success banner and the modal shown |
| FormProperties.RefusedSubmitKeepsValues | script.js:280-287 | submitting unacceptable values keeps every value and selection, sets every slot to its verdict and shows the error banner |
| FormProperties.ShortPasswordRefused | script.js:211 | a password of one to seven characters alone makes a submission fail with the too-short message |
| FormProperties.RequiredValidOpensGate | script.js:231-244 | with the six required fields valid, the gate on the validators' verdicts is open |
| FormProperties.GateOpenWhileSubmitRefused | script.js:231-244 | the gate can be open while a submission is refused: it does not consult the password |
| FormProperties.BlankLastNameIsReported | script.js:159-163 | the submit handler, run on a blank last name, puts "Last name is required." in its slot, shows the error banner, keeps the values and leaves the button disabled |

## Left out

- Everything that touches the document: element lookup, the `invalid`
  class on form groups, option elements, `renderStrength`'s CSS classes,
  the smooth scroll, and `addEventListener`. These are the record's
  fields, and the dispatch in `Form.Step`.
- `populateCountries` builds option elements. The list it builds is
  `Location.Countries`, and the select accepts exactly the catalog
  countries.
- The browser's refusal to fire `submit` while the only submit button is
  disabled, by click or by Enter. `Form.Step` handles `Submit` whatever the
  gate says, so it allows more submissions than the page does. The
  submission lemmas describe the handler. `FormProperties.EnabledMeansFilled`
  says what the button guarantees on every form the model reaches.
- Form.HasError: the handler counts `.form-group.invalid` elements. The
  model assumes each validated field sits in a form group of its own that
  is marked invalid exactly when its error slot holds a message. The page
  markup that would confirm this is not part of this model.
- The browser's own reset behaviour on the reset button. The model runs
  only the click handler's explicit actions, so values other than state and
  city are kept. On the page the native reset empties the values after the
  handler has recomputed the gate from the old ones. A filled form that is
  reset therefore keeps an enabled button on blank values, and a click
  then submits blank names. `FormProperties.NativeResetLeavesButtonEnabled`
  shows this, so `FormProperties.EnabledMeansFilled` holds on the page only
  in sessions that never click reset. The native reset also breaks the
  select invariant of `Form.WellFormed`. The click handler has rebuilt and
  enabled the state select for the old country, and the reset then empties
  the country. `FormProperties.NativeResetLeavesStateSelectEnabled` shows
  this, so what `Form.Step` and `Form.Run` keep about the selects likewise
  holds on the page only until reset is clicked.
- The browser's change events for a select are modelled as no-ops when
  the value chosen is already selected or is not offered by the select.
- Text.ToLower: lower-cases ASCII letters only, because the full Unicode
  case mapping of `toLowerCase` is out of scope. Non-ASCII letters are
  kept as they are.
- Strings are sequences of code points, not UTF-16 code units. The eight
  characters of the password length test are counted as characters.
- The end-to-end test scripts and the test-runner configuration are not
  part of this model. The strength labels they expect are
  `Strength.SampleStrengths`. Their blank-last-name scenario never clicks
  reset, and so cannot happen on the page (`FormProperties.BlankLastNameKeepsButtonDisabled`).
- The HTML page and the stylesheet are not part of this model.

=== FILE: form.dfy ===
/**
 The registration form as one immutable record, and its event handlers as
 one step function. The record holds what the handlers read and write on
 the page: the field values, the error slots, the state and city selects,
 the strength label, the alert banner, the success modal and the disabled
 flag of the submit button.
 */
module Form {
  import opened Text
  import opened Location
  import opened Strength
  import opened Validators

  datatype Fields = Fields(
    firstName: string,
    lastName: string,
    email: string,
    phone: string,
    age: string,
    gender: set<string>,
    address: string,
    country: string,
    state: string,
    city: string,
    password: string,
    confirmPassword: string,
    terms: bool)

  /** What the form holds after a reset: every text empty, nothing selected,
      nothing checked. */
  const EmptyFields := Fields("", "", "", "", "", {}, "", "", "", "", "", "", false)

  /** The error slots of the eight validated fields. */
  datatype Errors = Errors(
    firstName: string,
    lastName: string,
    email: string,
    phone: string,
    gender: string,
    password: string,
    confirmPassword: string,
    terms: string)

  const NoErrors := Errors("", "", "", "", "", "", "", "")

  /** Some field is marked invalid. Each validated field sits in a form group
      of its own, whose invalid mark is set exactly when its error slot holds
      a message. */
  predicate HasError(e: Errors) {
    || e.firstName != "" || e.lastName != "" || e.email != "" || e.phone != ""
    || e.gender != "" || e.password != "" || e.confirmPassword != "" || e.terms != ""
  }

  /** The option lists (placeholder option not included) and enabled flags of
      the two dependent selects. */
  datatype Selects = Selects(stateOptions: seq<string>, stateEnabled: bool, cityOptions: seq<string>, cityEnabled: bool)

  /** The strength label: the neutral placeholder, or a classification. */
  datatype StrengthLabel = Placeholder | Shown(level: Level)

  datatype Alert = NoAlert | ErrorAlert(message: string) | SuccessAlert(message: string)

  const CorrectErrors := "Please correct the highlighted errors."
  const Registered := "Registration Successful! Your profile has been submitted successfully."

  datatype Form = Form(
    fields: Fields,
    errors: Errors,
    selects: Selects,
    strength: StrengthLabel,
    alert: Alert,
    modalVisible: bool,
    submitEnabled: bool)

  /** The user's actions the page listens to, plus those it does not listen
      to but that change what its handlers later read. */
  datatype Event =
    | FirstNameInput(value: string)
    | LastNameInput(value: string)
    | EmailInput(value: string)
    | PhoneInput(value: string)
    | AgeInput(value: string)
    | AddressInput(value: string)
    | GenderChange(genders: set<string>)
    | CountryChange(value: string)
    | StateChange(value: string)
    | CityChange(value: string)
    | PasswordInput(value: string)
    | ConfirmPasswordInput(value: string)
    | TermsChange(checked: bool)
    | Submit
    | CloseModal
    | Reset

  /** The selects agree with the catalog and with the selected values: the
      country is unset or a catalog country, the state select offers that
      country's states and is enabled exactly when a country is set, the
      city select offers the selected state's cities and is enabled exactly
      when a state is set, and each selected value is one that is offered. */
  predicate WellFormed(form: Form) {
    var f := form.fields;
    var s := form.selects;
    && (f.country == "" || IsCountry(f.country))
    && s.stateEnabled == (f.country != "")
    && s.stateOptions == StatesOf(f.country)
    && (f.state == "" || f.state in s.stateOptions)
    && s.cityEnabled == (f.country != "" && f.state != "")
    && s.cityOptions == (if s.cityEnabled then CitiesOf(f.country, f.state) else [])
    && (f.city == "" || f.city in s.cityOptions)
  }

  // ----------------------------------------------------------- submit gate

  /** Whether the submit button is enabled: first and last name not blank,
      email and phone not blank with empty error slots, a gender checked and
      the terms accepted. */
  predicate Gate(f: Fields, e: Errors)
    ensures Gate(f, e) ==>
      && !AllSpace(f.firstName) && !AllSpace(f.lastName)
      && !AllSpace(f.email) && !AllSpace(f.phone)
  {
    && Trim(f.firstName) != ""
    && Trim(f.lastName) != ""
    && Trim(f.email) != "" && e.email == ""
    && Trim(f.phone) != "" && e.phone == ""
    && f.gender != {}
    && f.terms
  }

  function WithGate(form: Form): (r: Form)
    ensures r.submitEnabled == Gate(form.fields, form.errors)
    ensures r.fields == form.fields && r.errors == form.errors && r.selects == form.selects
    ensures r.strength == form.strength && r.alert == form.alert && r.modalVisible == form.modalVisible
  {
    form.(submitEnabled := Gate(form.fields, form.errors))
  }

  /** The six fields the gate reads are filled in validly. */
  predicate RequiredValid(f: Fields)
    requires f.country == "" || IsCountry(f.country)
  {
    && ValidateFirstName(f.firstName) == ""
    && ValidateLastName(f.lastName) == ""
    && ValidateEmail(f.email) == ""
    && ValidatePhone(f.phone, f.country) == ""
    && ValidateGender(f.gender) == ""
    && ValidateTerms(f.terms) == ""
  }

  /** When the email and phone error slots hold what their validators give,
      the gate is open exactly when the six required fields all validate. */
  lemma GateMeansRequiredFieldsValid(f: Fields, e: Errors)
    requires f.country == "" || IsCountry(f.country)
    requires e.email == ValidateEmail(f.email) && e.phone == ValidatePhone(f.phone, f.country)
    ensures Gate(f, e) <==> RequiredValid(f)
  {
    EmailValidation(f.email);
    if ValidateEmail(f.email) == "" {
      var v := NormalizeEmail(f.email);
      var local, a, b :| EmailSplit(v, local, a, b);
      assert v != [];
      assert |Trim(f.email)| == |v|;
    }
    assert Trim(f.firstName) != "" <==> ValidateFirstName(f.firstName) == "";
    assert Trim(f.lastName) != "" <==> ValidateLastName(f.lastName) == "";
    assert Trim(f.email) != "" && e.email == "" <==> ValidateEmail(f.email) == "";
    assert Trim(f.phone) != "" && e.phone == "" <==> ValidatePhone(f.phone, f.country) == "";
    assert f.gender != {} <==> ValidateGender(f.gender) == "";
    assert f.terms <==> ValidateTerms(f.terms) == "";
  }

  /** The gate never looks at the password, the confirmation, or the error
      slots of names, gender and terms. */
  lemma GateIgnoresPasswords(f: Fields, e: Errors, pw: string, confirm: string, e': Errors)
    requires e'.email == e.email && e'.phone == e.phone
    ensures Gate(f.(password := pw, confirmPassword := confirm), e') == Gate(f, e)
  {
  }

  // --------------------------------------------------------------- cascade

  /** The state select rebuilt for a country: its states in catalog order
      and enabled when a country is set; the city select emptied and
      disabled. */
  function UpdateStates(form: Form): (r: Form)
    requires form.fields.country == "" || IsCountry(form.fields.country)
    ensures r.fields == form.fields.(state := "", city := "")
    ensures r.selects.cityOptions == [] && !r.selects.cityEnabled
    ensures r.selects.stateEnabled <==> form.fields.country != ""
    ensures form.fields.country == "" ==> r.selects.stateOptions == []
    ensures forall info :: (form.fields.country, info) in Catalog ==>
      && |r.selects.stateOptions| == |info.states|
      && forall i :: 0 <= i < |info.states| ==> r.selects.stateOptions[i] == info.states[i].0
    ensures r.errors == form.errors && r.strength == form.strength && r.alert == form.alert
    ensures r.modalVisible == form.modalVisible && r.submitEnabled == form.submitEnabled
    ensures WellFormed(r)
  {
    var c := form.fields.country;
    form.(fields := form.fields.(state := "", city := ""),
          selects := Selects(StatesOf(c), c != "", [], false))
  }

  /** The city select rebuilt for the selected state: enabled exactly when a
      country and a state are set, offering then that state's cities in
      catalog order, and empty otherwise. */
  function UpdateCities(form: Form): (r: Form)
    requires form.fields.country == "" || IsCountry(form.fields.country)
    requires form.fields.state == "" || form.fields.state in StatesOf(form.fields.country)
    requires form.selects.stateOptions == StatesOf(form.fields.country)
    requires form.selects.stateEnabled == (form.fields.country != "")
    ensures r.fields == form.fields.(city := "")
    ensures r.selects.cityEnabled <==> form.fields.country != "" && form.fields.state != ""
    ensures !r.selects.cityEnabled ==> r.selects.cityOptions == []
    ensures forall info, cities ::
      (form.fields.country, info) in Catalog && (form.fields.state, cities) in info.states ==>
        r.selects.cityOptions == cities
    ensures r.selects.stateOptions == form.selects.stateOptions
    ensures r.selects.stateEnabled == form.selects.stateEnabled
    ensures r.errors == form.errors && r.strength == form.strength && r.alert == form.alert
    ensures r.modalVisible == form.modalVisible && r.submitEnabled == form.submitEnabled
    ensures WellFormed(r)
  {
    var c := form.fields.country;
    var s := form.fields.state;
    var enabled := c != "" && s != "";
    form.(fields := form.fields.(city := ""),
          selects := form.selects.(cityOptions := if enabled then CitiesOf(c, s) else [], cityEnabled := enabled))
  }

  // ---------------------------------------------------------- validations

  /** Every validator run on the current values. Values that pass every
      validator also open the gate. */
  function ValidateAll(f: Fields): (e: Errors)
    requires f.country == "" || IsCountry(f.country)
    ensures !HasError(e) ==> Gate(f, e)
  {
    var e := Errors(
      ValidateFirstName(f.firstName),
      ValidateLastName(f.lastName),
      ValidateEmail(f.email),
      ValidatePhone(f.phone, f.country),
      ValidateGender(f.gender),
      ValidatePassword(f.password),
      ValidateConfirmPassword(f.password, f.confirmPassword),
      ValidateTerms(f.terms));
    GateMeansRequiredFieldsValid(f, e);
    e
  }

  /** The values a submission accepts: both names not blank, an address that
      matches the email pattern on a domain not on the disposable list, a
      phone that is not blank, carries the selected country's code and
      matches the phone pattern, a gender ticked, a password that is empty
      or at least eight characters long and confirmed unless empty, and the
      terms accepted. */
  ghost predicate Acceptable(f: Fields)
    requires f.country == "" || IsCountry(f.country)
  {
    && (exists i :: 0 <= i < |f.firstName| && !IsSpace(f.firstName[i]))
    && (exists i :: 0 <= i < |f.lastName| && !IsSpace(f.lastName[i]))
    && AcceptedEmail(NormalizeEmail(f.email))
    && !AllSpace(f.phone)
    && (f.country == "" || StartsWith(Trim(f.phone), DialingCode(f.country)))
    && MatchesPhonePattern(Trim(f.phone))
    && f.gender != {}
    && (f.password == [] || |f.password| >= 8)
    && (f.password == [] || f.confirmPassword == f.password)
    && f.terms
  }

  /** Running every validator leaves no error exactly on acceptable values. */
  lemma ValidateAllAcceptsExactly(f: Fields)
    requires f.country == "" || IsCountry(f.country)
    ensures !HasError(ValidateAll(f)) <==> Acceptable(f)
  {
    var e := ValidateAll(f);
    assert (e.email == "") == AcceptedEmail(NormalizeEmail(f.email)) by {
      EmailValidation(f.email);
    }
    assert (e.phone == "") == (
      && !AllSpace(f.phone)
      && (f.country == "" || StartsWith(Trim(f.phone), DialingCode(f.country)))
      && MatchesPhonePattern(Trim(f.phone)))
    by {
      PhoneValidation(f.phone, f.country);
    }
  }

  // ------------------------------------------------- submit, reset, modal

  /** The submit handler: every validator runs again. With any error the
      error banner appears and every value stays; otherwise the success
      banner and the modal appear and the form is emptied, which closes
      the gate. */
  function SubmitForm(form: Form): (r: Form)
    requires WellFormed(form)
    ensures HasError(ValidateAll(form.fields)) ==>
      && r.alert == ErrorAlert(CorrectErrors)
      && r.fields == form.fields
      && r.selects == form.selects
      && r.errors == ValidateAll(form.fields)
      && r.modalVisible == form.modalVisible
      && r.strength == Shown(PasswordStrength(form.fields.password))
      && r.submitEnabled == Gate(form.fields, r.errors)
    ensures !HasError(ValidateAll(form.fields)) ==>
      && r.alert == SuccessAlert(Registered)
      && r.modalVisible
      && r.fields == EmptyFields
      && r.errors == NoErrors
      && r.selects == Selects([], false, [], false)
      && r.strength == Placeholder
      && !r.submitEnabled
    ensures WellFormed(r)
  {
    var e := ValidateAll(form.fields);
    var checked := form.(errors := e, strength := Shown(PasswordStrength(form.fields.password)),
                         submitEnabled := Gate(form.fields, e));
    if HasError(e) then
      checked.(alert := ErrorAlert(CorrectErrors))
    else
      var shown := checked.(alert := SuccessAlert(Registered), modalVisible := true, fields := EmptyFields);
      WithGate(UpdateStates(shown)).(strength := Placeholder)
  }

  /** The reset button's handler: error slots, banner and strength label are
      cleared and the state select is rebuilt for the country still
      selected; the other values are left as they are, so the gate is
      recomputed from them with every error slot empty. */
  function ResetForm(form: Form): (r: Form)
    requires WellFormed(form)
    ensures r.errors == NoErrors && r.alert == NoAlert && r.strength == Placeholder
    ensures r.fields == form.fields.(state := "", city := "")
    ensures r.submitEnabled <==>
      && !AllSpace(form.fields.firstName) && !AllSpace(form.fields.lastName)
      && !AllSpace(form.fields.email) && !AllSpace(form.fields.phone)
      && form.fields.gender != {} && form.fields.terms
    ensures r.modalVisible == form.modalVisible
    ensures WellFormed(r)
  {
    WithGate(UpdateStates(form.(errors := NoErrors, alert := NoAlert, strength := Placeholder)))
  }

  /** The page as it is once loaded: empty, the state and city selects
      disabled, no banner, no modal, the submit button disabled. */
  function Loaded(): (r: Form)
    ensures WellFormed(r)
    ensures r.fields == EmptyFields && r.errors == NoErrors
    ensures !r.selects.stateEnabled && !r.selects.cityEnabled
    ensures !r.submitEnabled && !r.modalVisible && r.alert == NoAlert
  {
    var blank := Form(EmptyFields, NoErrors, Selects([], false, [], false), Placeholder, NoAlert, false, false);
    WithGate(UpdateStates(blank))
  }

  // ------------------------------------------------------------ the step

  predicate SameSelection(f: Fields, g: Fields) {
    f.country == g.country && f.state == g.state && f.city == g.city
  }

  /** A handler that only validates fields: new values and error slots,
      then the gate recomputed. */
  function Revalidated(form: Form, f: Fields, e: Errors): (r: Form)
    requires WellFormed(form) && SameSelection(form.fields, f)
    ensures r.fields == f && r.errors == e && r.submitEnabled == Gate(f, e)
    ensures r.selects == form.selects && r.strength == form.strength
    ensures r.alert == form.alert && r.modalVisible == form.modalVisible
    ensures WellFormed(r)
  {
    WithGate(form.(fields := f, errors := e))
  }

  /** A field change no handler listens to: only the value changes. */
  function Unwatched(form: Form, f: Fields): (r: Form)
    requires WellFormed(form) && SameSelection(form.fields, f)
    ensures r == form.(fields := f)
    ensures WellFormed(r)
  {
    form.(fields := f)
  }

  /** The country select's change handler: the state select is rebuilt and
      the phone is validated against the new country's code. */
  function ChangeCountry(form: Form, c: string): (r: Form)
    requires WellFormed(form)
    requires c == "" || IsCountry(c)
    ensures r.fields == form.fields.(country := c, state := "", city := "")
    ensures r.errors == form.errors.(phone := ValidatePhone(form.fields.phone, c))
    ensures r.selects.cityOptions == [] && !r.selects.cityEnabled && r.selects.stateEnabled == (c != "")
    ensures r.submitEnabled == Gate(r.fields, r.errors)
    ensures r.alert == form.alert
    ensures WellFormed(r)
  {
    var u := UpdateStates(form.(fields := form.fields.(country := c)));
    WithGate(u.(errors := u.errors.(phone := ValidatePhone(u.fields.phone, c))))
  }

  /** The state select's change handler: the city select is rebuilt. */
  function ChangeState(form: Form, st: string): (r: Form)
    requires WellFormed(form)
    requires form.selects.stateEnabled && (st == "" || st in form.selects.stateOptions)
    ensures r.fields == form.fields.(state := st, city := "")
    ensures r.selects.cityEnabled == (st != "")
    ensures r.selects.cityOptions == if st != "" then CitiesOf(form.fields.country, st) else []
    ensures r.errors == form.errors && r.submitEnabled == form.submitEnabled
    ensures r.alert == form.alert
    ensures WellFormed(r)
  {
    UpdateCities(form.(fields := form.fields.(state := st)))
  }

  /** The handlers of the inputs that have a validator: each revalidates
      its field, and so recomputes the gate. */
  function Watched(form: Form, ev: Event): (r: Form)
    requires WellFormed(form)
    requires || ev.FirstNameInput? || ev.LastNameInput? || ev.EmailInput? || ev.PhoneInput?
             || ev.PasswordInput? || ev.ConfirmPasswordInput? || ev.TermsChange?
    ensures r.submitEnabled == Gate(r.fields, r.errors)
    ensures r.alert == form.alert
    ensures WellFormed(r)
  {
    var f := form.fields;
    var e := form.errors;
    match ev
    case FirstNameInput(v) =>
      Revalidated(form, f.(firstName := v), e.(firstName := ValidateFirstName(v)))
    case LastNameInput(v) =>
      Revalidated(form, f.(lastName := v), e.(lastName := ValidateLastName(v)))
    case EmailInput(v) =>
      Revalidated(form, f.(email := v), e.(email := ValidateEmail(v)))
    case PhoneInput(v) =>
      Revalidated(form, f.(phone := v), e.(phone := ValidatePhone(v, f.country)))
    case PasswordInput(v) =>
      Revalidated(form, f.(password := v),
                  e.(password := ValidatePassword(v), confirmPassword := ValidateConfirmPassword(v, f.confirmPassword)))
        .(strength := Shown(PasswordStrength(v)))
    case ConfirmPasswordInput(v) =>
      Revalidated(form, f.(confirmPassword := v), e.(confirmPassword := ValidateConfirmPassword(f.password, v)))
    case TermsChange(b) =>
      Revalidated(form, f.(terms := b), e.(terms := ValidateTerms(b)))
  }

  /** The handlers of the text inputs, the gender group and the terms box.
      Age, address and gender have no handler: their values change and
      nothing else, the gate included. */
  function Edit(form: Form, ev: Event): (r: Form)
    requires WellFormed(form)
    requires !ev.CountryChange? && !ev.StateChange? && !ev.CityChange?
    requires !ev.Submit? && !ev.CloseModal? && !ev.Reset?
    ensures ev.AgeInput? || ev.AddressInput? || ev.GenderChange? ==>
      r.submitEnabled == form.submitEnabled && r.errors == form.errors
    ensures !(ev.AgeInput? || ev.AddressInput? || ev.GenderChange?) ==>
      r.submitEnabled == Gate(r.fields, r.errors)
    ensures r.alert == form.alert
    ensures WellFormed(r)
  {
    var f := form.fields;
    if ev.AgeInput? then Unwatched(form, f.(age := ev.value))
    else if ev.AddressInput? then Unwatched(form, f.(address := ev.value))
    else if ev.GenderChange? then Unwatched(form, f.(gender := ev.genders))
    else Watched(form, ev)
  }

  /** The handlers of the three selects. Selecting an option a select does
      not offer, or the option already selected, changes nothing, as the
      browser fires no change event for it. */
  function Select(form: Form, ev: Event): (r: Form)
    requires WellFormed(form)
    requires ev.CountryChange? || ev.StateChange? || ev.CityChange?
    ensures r.alert == form.alert
    ensures WellFormed(r)
  {
    var f := form.fields;
    match ev
    case CountryChange(c) =>
      if c == f.country || (c != "" && !IsCountry(c)) then form
      else ChangeCountry(form, c)
    case StateChange(st) =>
      if st == f.state || !form.selects.stateEnabled || (st != "" && st !in form.selects.stateOptions) then form
      else ChangeState(form, st)
    case CityChange(c) =>
      if c == f.city || !form.selects.cityEnabled || (c != "" && c !in form.selects.cityOptions) then form
      else form.(fields := f.(city := c))
  }

  /** One event and the handler the page runs for it. */
  function Step(form: Form, ev: Event): (r: Form)
    requires WellFormed(form)
    ensures WellFormed(r)
  {
    if ev.Submit? then SubmitForm(form)
    else if ev.Reset? then ResetForm(form)
    else if ev.CloseModal? then form.(modalVisible := false)
    else if ev.CountryChange? || ev.StateChange? || ev.CityChange? then Select(form, ev)
    else Edit(form, ev)
  }

  /** A sequence of events, one after the other; the selects stay consistent
      throughout. */
  function Run(form: Form, events: seq<Event>): (r: Form)
    requires WellFormed(form)
    ensures WellFormed(r)
    decreases |events|
  {
    if events == [] then form else Run(Step(form, events[0]), events[1..])
  }
}

=== FILE: form_properties.dfy ===
/**
 Properties of the form's event handling that relate several calls: what
 an enabled button guarantees on every form the model reaches, what each event
 leaves alone, when the submit gate is recomputed, how the cascade and the
 confirmation react, and what the submit handler does with given values.
 */
module FormProperties {
  import opened Text
  import opened Location
  import opened Strength
  import opened Validators
  import opened Form

  /** What an enabled submit button guarantees on every form the model
      reaches from the loaded page: both names, the email and the phone are
      not blank, the email and phone slots are empty, and the terms are
      accepted. Gender is not among them: it has no change handler, so
      unticking it does not recompute the gate. The browser's native reset,
      which the model leaves out, breaks the guarantee
      (`NativeResetLeavesButtonEnabled`). */
  predicate EnabledMeansFilled(form: Form) {
    form.submitEnabled ==>
      && Trim(form.fields.firstName) != ""
      && Trim(form.fields.lastName) != ""
      && Trim(form.fields.email) != "" && form.errors.email == ""
      && Trim(form.fields.phone) != "" && form.errors.phone == ""
      && form.fields.terms
  }

  /** The page starts with the button disabled. */
  lemma LoadedEnabledMeansFilled()
    ensures EnabledMeansFilled(Loaded())
  {
  }

  /** A country change recomputes the gate. */
  lemma CountryChangeKeepsEnabledMeansFilled(form: Form, ev: Event)
    requires WellFormed(form) && EnabledMeansFilled(form)
    requires ev.CountryChange?
    ensures EnabledMeansFilled(Step(form, ev))
  {
    var r, t := Step(form, ev), Select(form, ev);
    assert r.submitEnabled == t.submitEnabled && r.fields == t.fields && r.errors == t.errors;
    var c := ev.value;
    if c != form.fields.country && (c == "" || IsCountry(c)) {
      var u := ChangeCountry(form, c);
      assert t.submitEnabled == u.submitEnabled && t.fields == u.fields && t.errors == u.errors;
    }
  }

  /** A state choice changes no value the guarantee reads. */
  lemma StateChangeKeepsEnabledMeansFilled(form: Form, ev: Event)
    requires WellFormed(form) && EnabledMeansFilled(form)
    requires ev.StateChange?
    ensures EnabledMeansFilled(Step(form, ev))
  {
    var r, t := Step(form, ev), Select(form, ev);
    assert r.submitEnabled == t.submitEnabled && r.fields == t.fields && r.errors == t.errors;
    var st := ev.value;
    if st != form.fields.state && form.selects.stateEnabled && (st == "" || st in form.selects.stateOptions) {
      var u := ChangeState(form, st);
      assert t.submitEnabled == u.submitEnabled && t.fields == u.fields && t.errors == u.errors;
    }
  }

  /** A city choice changes no value the guarantee reads. */
  lemma CityChangeKeepsEnabledMeansFilled(form: Form, ev: Event)
    requires WellFormed(form) && EnabledMeansFilled(form)
    requires ev.CityChange?
    ensures EnabledMeansFilled(Step(form, ev))
  {
    var r, t := Step(form, ev), Select(form, ev);
    assert r.submitEnabled == t.submitEnabled && r.fields == t.fields && r.errors == t.errors;
  }

  /** Submitting, resetting and closing the modal keep the guarantee:
      the first two recompute the gate, the last changes nothing it reads. */
  lemma ButtonsKeepEnabledMeansFilled(form: Form, ev: Event)
    requires WellFormed(form) && EnabledMeansFilled(form)
    requires ev.Submit? || ev.Reset? || ev.CloseModal?
    ensures EnabledMeansFilled(Step(form, ev))
  {
    var r := Step(form, ev);
    if ev.Submit? {
      var t := SubmitForm(form);
      assert r.submitEnabled == t.submitEnabled && r.fields == t.fields && r.errors == t.errors;
    } else if ev.Reset? {
      var t := ResetForm(form);
      assert r.submitEnabled == t.submitEnabled && r.fields == t.fields && r.errors == t.errors;
    }
  }

  /** Typing, ticking and toggling keep the guarantee: the watched fields
      recompute the gate, and age, address and gender change no value the
      guarantee reads. */
  lemma EditKeepsEnabledMeansFilled(form: Form, ev: Event)
    requires WellFormed(form) && EnabledMeansFilled(form)
    requires !ev.CountryChange? && !ev.StateChange? && !ev.CityChange?
    requires !ev.Submit? && !ev.CloseModal? && !ev.Reset?
    ensures EnabledMeansFilled(Step(form, ev))
  {
    var r, t := Step(form, ev), Edit(form, ev);
    assert r.submitEnabled == t.submitEnabled && r.fields == t.fields && r.errors == t.errors;
  }

  /** Every event keeps the guarantee. */
  lemma StepKeepsEnabledMeansFilled(form: Form, ev: Event)
    requires WellFormed(form) && EnabledMeansFilled(form)
    ensures EnabledMeansFilled(Step(form, ev))
  {
    if ev.CountryChange? {
      CountryChangeKeepsEnabledMeansFilled(form, ev);
    } else if ev.StateChange? {
      StateChangeKeepsEnabledMeansFilled(form, ev);
    } else if ev.CityChange? {
      CityChangeKeepsEnabledMeansFilled(form, ev);
    } else if ev.Submit? || ev.Reset? || ev.CloseModal? {
      ButtonsKeepEnabledMeansFilled(form, ev);
    } else {
      EditKeepsEnabledMeansFilled(form, ev);
    }
  }

  /** Any sequence of events keeps the guarantee. */
  lemma {:induction false} RunKeepsEnabledMeansFilled(form: Form, events: seq<Event>)
    requires WellFormed(form) && EnabledMeansFilled(form)
    ensures EnabledMeansFilled(Run(form, events))
    decreases |events|
  {
    if events != [] {
      StepKeepsEnabledMeansFilled(form, events[0]);
      RunKeepsEnabledMeansFilled(Step(form, events[0]), events[1..]);
    }
  }

  /** After any events the model admits since the page loaded, a blank last
      name leaves the submit button disabled, so clicking it submits
      nothing. On the page this holds in sessions that never click reset. */
  lemma BlankLastNameKeepsButtonDisabled(events: seq<Event>)
    requires AllSpace(Run(Loaded(), events).fields.lastName)
    ensures !Run(Loaded(), events).submitEnabled
  {
    LoadedEnabledMeansFilled();
    RunKeepsEnabledMeansFilled(Loaded(), events);
  }

  /** The browser's own reset, which empties the values after the reset
      button's click handler has recomputed the gate from the old ones,
      would leave the button enabled on a blank form: the guarantee above
      holds only while the native reset is left out. */
  lemma NativeResetLeavesButtonEnabled(form: Form)
    requires WellFormed(form)
    requires !AllSpace(form.fields.firstName) && !AllSpace(form.fields.lastName)
    requires !AllSpace(form.fields.email) && !AllSpace(form.fields.phone)
    requires form.fields.gender != {} && form.fields.terms
    ensures var r := ResetForm(form).(fields := EmptyFields);
      && r.submitEnabled
      && AllSpace(r.fields.lastName)
      && !EnabledMeansFilled(r)
  {
  }

  /** The native reset would also leave the state select enabled, rebuilt
      by the click handler for the old country, with no country chosen. */
  lemma NativeResetLeavesStateSelectEnabled(form: Form)
    requires WellFormed(form)
    requires form.fields.country != ""
    ensures var r := ResetForm(form).(fields := EmptyFields);
      && r.selects.stateEnabled
      && r.fields.country == ""
      && !WellFormed(r)
  {
  }

  /** Typing into the email field changes its value and its error slot,
      recomputes the gate, and leaves every other value and slot alone. */
  lemma EmailInputChangesOnlyEmail(form: Form, v: string)
    requires WellFormed(form)
    ensures var r := Step(form, EmailInput(v));
      && r.fields == form.fields.(email := v)
      && r.errors == form.errors.(email := ValidateEmail(v))
      && r.submitEnabled == Gate(r.fields, r.errors)
  {
    var r, t, w := Step(form, EmailInput(v)), Edit(form, EmailInput(v)), Watched(form, EmailInput(v));
    assert t == w;
    assert r.fields == w.fields && r.errors == w.errors && r.submitEnabled == w.submitEnabled;
  }

  /** Typing into the phone field changes its value and its error slot,
      judged against the selected country, recomputes the gate, and leaves
      every other value and slot alone. */
  lemma PhoneInputChangesOnlyPhone(form: Form, v: string)
    requires WellFormed(form)
    ensures var r := Step(form, PhoneInput(v));
      && r.fields == form.fields.(phone := v)
      && r.errors == form.errors.(phone := ValidatePhone(v, form.fields.country))
      && r.submitEnabled == Gate(r.fields, r.errors)
  {
    var r, t, w := Step(form, PhoneInput(v)), Edit(form, PhoneInput(v)), Watched(form, PhoneInput(v));
    assert t == w;
    assert r.fields == w.fields && r.errors == w.errors && r.submitEnabled == w.submitEnabled;
  }

  /** Typing a first name changes only that value and its slot. */
  lemma FirstNameInputChangesOnlyFirstName(form: Form, v: string)
    requires WellFormed(form)
    ensures var r := Step(form, FirstNameInput(v));
      && r.fields == form.fields.(firstName := v)
      && r.errors == form.errors.(firstName := ValidateFirstName(v))
      && r.submitEnabled == Gate(r.fields, r.errors)
  {
    var r, t, w := Step(form, FirstNameInput(v)), Edit(form, FirstNameInput(v)), Watched(form, FirstNameInput(v));
    assert t == w;
    assert r.fields == w.fields && r.errors == w.errors && r.submitEnabled == w.submitEnabled;
  }

  /** Typing a last name changes only that value and its slot. */
  lemma LastNameInputChangesOnlyLastName(form: Form, v: string)
    requires WellFormed(form)
    ensures var r := Step(form, LastNameInput(v));
      && r.fields == form.fields.(lastName := v)
      && r.errors == form.errors.(lastName := ValidateLastName(v))
      && r.submitEnabled == Gate(r.fields, r.errors)
  {
    var r, t, w := Step(form, LastNameInput(v)), Edit(form, LastNameInput(v)), Watched(form, LastNameInput(v));
    assert t == w;
    assert r.fields == w.fields && r.errors == w.errors && r.submitEnabled == w.submitEnabled;
  }

  /** Toggling the terms box changes only that value and its slot. */
  lemma TermsChangeChangesOnlyTerms(form: Form, b: bool)
    requires WellFormed(form)
    ensures var r := Step(form, TermsChange(b));
      && r.fields == form.fields.(terms := b)
      && r.errors == form.errors.(terms := ValidateTerms(b))
      && r.submitEnabled == Gate(r.fields, r.errors)
  {
    var r, t, w := Step(form, TermsChange(b)), Edit(form, TermsChange(b)), Watched(form, TermsChange(b));
    assert t == w;
    assert r.fields == w.fields && r.errors == w.errors && r.submitEnabled == w.submitEnabled;
  }

  /** Only submitting and the reset button touch the banner: fixing a field
      after a failed submission leaves the error banner up. */
  lemma AlertChangesOnlyOnSubmitOrReset(form: Form, ev: Event)
    requires WellFormed(form)
    requires !ev.Submit? && !ev.Reset?
    ensures Step(form, ev).alert == form.alert
  {
    if ev.CloseModal? {
    } else if ev.CountryChange? || ev.StateChange? || ev.CityChange? {
      assert Step(form, ev).alert == Select(form, ev).alert;
    } else {
      assert Step(form, ev).alert == Edit(form, ev).alert;
    }
  }

  /** A change no handler listens to (gender, age, address) and a city
      choice run no validator: the value changes, and the error slots and
      the gate stay as they were, however the values changed. */
  lemma UnwatchedChangesKeepGate(form: Form, ev: Event)
    requires WellFormed(form)
    requires ev.AgeInput? || ev.AddressInput? || ev.GenderChange? || ev.CityChange?
    ensures Step(form, ev).submitEnabled == form.submitEnabled
    ensures Step(form, ev).errors == form.errors
  {
    var r := Step(form, ev);
    if ev.CityChange? {
      var t := Select(form, ev);
      assert r.errors == t.errors && r.submitEnabled == t.submitEnabled;
    } else {
      var t := Edit(form, ev);
      assert r.errors == t.errors && r.submitEnabled == t.submitEnabled;
    }
  }

  /** Changing the country drops the selected state and city, empties and
      disables the city select, and revalidates the phone against the new
      country's dialing code. */
  lemma CountryChangeClearsSelection(form: Form, c: string)
    requires WellFormed(form)
    requires c != form.fields.country && (c == "" || IsCountry(c))
    ensures var r := Step(form, CountryChange(c));
      && r.fields.country == c && r.fields.state == "" && r.fields.city == ""
      && r.selects.cityOptions == [] && !r.selects.cityEnabled
      && r.selects.stateEnabled == (c != "")
      && r.errors.phone == ValidatePhone(form.fields.phone, c)
  {
    var r, t := Step(form, CountryChange(c)), ChangeCountry(form, c);
    assert r.fields == t.fields && r.selects == t.selects && r.errors == t.errors by {
      assert Select(form, CountryChange(c)) == t;
    }
  }

  /** Choosing a state offered by the state select enables the city select
      with exactly that state's cities, in catalog order (see `CitiesOf`);
      choosing the placeholder empties and disables it. */
  lemma StateChangeOffersItsCities(form: Form, st: string)
    requires WellFormed(form)
    requires form.selects.stateEnabled && st != form.fields.state
    requires st == "" || st in form.selects.stateOptions
    ensures var r := Step(form, StateChange(st));
      && r.fields.state == st && r.fields.city == ""
      && (r.selects.cityEnabled <==> st != "")
      && (st == "" ==> r.selects.cityOptions == [])
      && (st != "" ==> r.selects.cityOptions == CitiesOf(form.fields.country, st))
  {
    var r, t := Step(form, StateChange(st)), ChangeState(form, st);
    assert r.fields == t.fields && r.selects == t.selects by {
      assert Select(form, StateChange(st)) == t;
    }
  }

  /** A password change revalidates the confirmation as well, and shows the
      new password's strength; the empty password is shown as weak. */
  lemma PasswordInputRevalidatesConfirmation(form: Form, v: string)
    requires WellFormed(form)
    ensures var r := Step(form, PasswordInput(v));
      && r.errors.password == ValidatePassword(v)
      && r.errors.confirmPassword == ValidateConfirmPassword(v, form.fields.confirmPassword)
      && r.strength == Shown(PasswordStrength(v))
      && (v == "" ==> r.strength == Shown(Weak) && r.errors.password == "" && r.errors.confirmPassword == "")
  {
    EmptyPasswordIsWeak();
    var r, t := Step(form, PasswordInput(v)), Edit(form, PasswordInput(v));
    assert r.errors == t.errors && r.strength == t.strength;
  }

  /** Typing the confirmation changes only that value and its slot, judged
      against the password as it stands. */
  lemma ConfirmInputChangesOnlyConfirmation(form: Form, v: string)
    requires WellFormed(form)
    ensures var r := Step(form, ConfirmPasswordInput(v));
      && r.fields == form.fields.(confirmPassword := v)
      && r.errors == form.errors.(confirmPassword := ValidateConfirmPassword(form.fields.password, v))
      && r.submitEnabled == Gate(r.fields, r.errors)
  {
    var r, t, w := Step(form, ConfirmPasswordInput(v)), Edit(form, ConfirmPasswordInput(v)), Watched(form, ConfirmPasswordInput(v));
    assert t == w;
    assert r.fields == w.fields && r.errors == w.errors && r.submitEnabled == w.submitEnabled;
  }

  /** A mismatch error disappears as soon as the confirmation is typed equal
      to the password, or the password equal to the confirmation. */
  lemma MatchingClearsConfirmationError(form: Form)
    requires WellFormed(form)
    ensures Step(form, ConfirmPasswordInput(form.fields.password)).errors.confirmPassword == ""
    ensures Step(form, PasswordInput(form.fields.confirmPassword)).errors.confirmPassword == ""
  {
    ConfirmInputChangesOnlyConfirmation(form, form.fields.password);
    PasswordInputRevalidatesConfirmation(form, form.fields.confirmPassword);
  }

  /** Closing the modal hides it and changes nothing else. */
  lemma CloseModalOnlyHides(form: Form)
    requires WellFormed(form)
    ensures var r := Step(form, CloseModal);
      && !r.modalVisible
      && r.fields == form.fields && r.errors == form.errors && r.selects == form.selects
      && r.alert == form.alert && r.strength == form.strength && r.submitEnabled == form.submitEnabled
  {
  }

  /** After a successful submission the form is as it was when the page
      loaded, except that the success banner and the modal are shown. */
  lemma SuccessfulSubmitResetsForm(form: Form)
    requires WellFormed(form)
    requires Acceptable(form.fields)
    ensures var r := Step(form, Submit);
      && r.fields == Loaded().fields && r.errors == Loaded().errors
      && r.selects == Loaded().selects && r.strength == Loaded().strength
      && r.submitEnabled == Loaded().submitEnabled
      && r.alert == SuccessAlert(Registered) && r.modalVisible
  {
    ValidateAllAcceptsExactly(form.fields);
  }

  /** A submission with an unacceptable value keeps every value, shows the
      error banner and leaves every error slot holding what its validator
      says. */
  lemma RefusedSubmitKeepsValues(form: Form)
    requires WellFormed(form)
    requires !Acceptable(form.fields)
    ensures var r := Step(form, Submit);
      && r.fields == form.fields && r.selects == form.selects
      && r.errors == ValidateAll(form.fields) && HasError(r.errors)
      && r.alert == ErrorAlert(CorrectErrors) && r.modalVisible == form.modalVisible
  {
    ValidateAllAcceptsExactly(form.fields);
  }

  /** A password of one to seven characters alone makes a submission
      refused: the error banner is shown, the password slot says it is too
      short, and every value is kept. */
  lemma ShortPasswordRefused(form: Form)
    requires WellFormed(form)
    requires 0 < |form.fields.password| < 8
    ensures var r := Step(form, Submit);
      && r.alert == ErrorAlert(CorrectErrors)
      && r.errors.password == PasswordTooShort
      && r.fields == form.fields
  {
    assert HasError(ValidateAll(form.fields));
    var r, t := Step(form, Submit), SubmitForm(form);
    assert r.alert == t.alert && r.fields == t.fields && r.errors == t.errors;
  }

  /** With the six required fields valid, the gate computed from the
      validators' verdicts is open. */
  lemma RequiredValidOpensGate(f: Fields)
    requires f.country == "" || IsCountry(f.country)
    requires RequiredValid(f)
    ensures Gate(f, ValidateAll(f))
  {
    GateMeansRequiredFieldsValid(f, ValidateAll(f));
  }

  /** The gate does not consult the password: with the required fields
      valid and a password of one to seven characters, the gate computed
      from the validators' verdicts is open, yet a submission is refused
      with the error banner. */
  lemma GateOpenWhileSubmitRefused(form: Form)
    requires WellFormed(form)
    requires RequiredValid(form.fields)
    requires 0 < |form.fields.password| < 8
    ensures Gate(form.fields, ValidateAll(form.fields))
    ensures Step(form, Submit).alert == ErrorAlert(CorrectErrors)
    ensures Step(form, Submit).fields == form.fields
  {
    RequiredValidOpensGate(form.fields);
    ShortPasswordRefused(form);
  }

  /** Ticking genders changes only that value: no slot and not the gate. */
  lemma GenderChangeChangesOnlyGender(form: Form, g: set<string>)
    requires WellFormed(form)
    ensures var r := Step(form, GenderChange(g));
      && r.fields == form.fields.(gender := g)
      && r.errors == form.errors
      && r.submitEnabled == form.submitEnabled
  {
    var r, t := Step(form, GenderChange(g)), Edit(form, GenderChange(g));
    assert r.fields == t.fields && r.errors == t.errors && r.submitEnabled == t.submitEnabled;
  }

  /** Ticking a gender runs no validator and does not recompute the gate:
      on a form where gender was the only required field missing and the
      button was disabled, the button stays disabled although the gate
      computed from the new values would open it. */
  lemma GenderTickLeavesGateStale(form: Form, g: set<string>)
    requires WellFormed(form)
    requires !form.submitEnabled && g != {}
    requires RequiredValid(form.fields.(gender := g))
    requires form.errors.email == ValidateEmail(form.fields.email)
    requires form.errors.phone == ValidatePhone(form.fields.phone, form.fields.country)
    ensures !Step(form, GenderChange(g)).submitEnabled
    ensures Gate(Step(form, GenderChange(g)).fields, Step(form, GenderChange(g)).errors)
  {
    GenderChangeChangesOnlyGender(form, g);
    GateMeansRequiredFieldsValid(form.fields.(gender := g), form.errors);
  }

  /** The stale gate the other way round: unticking every gender while the
      button is enabled leaves it enabled, and the submission it lets
      through is refused with the gender message and the error banner. */
  lemma GenderUntickLeavesButtonEnabled(form: Form)
    requires WellFormed(form) && form.submitEnabled
    ensures Step(form, GenderChange({})).submitEnabled
    ensures var u := Step(form, GenderChange({}));
      && Step(u, Submit).alert == ErrorAlert(CorrectErrors)
      && Step(u, Submit).errors.gender == GenderRequired
  {
    GenderChangeChangesOnlyGender(form, {});
    var u := Step(form, GenderChange({}));
    assert ValidateAll(u.fields).gender == GenderRequired;
    var r, t := Step(u, Submit), SubmitForm(u);
    assert r.alert == t.alert && r.errors == t.errors;
  }

  /** What the submit handler does with a blank last name: it shows "Last
      name is required." in the last name's slot and the error banner, and
      keeps every value. In the model, and on the page in sessions that
      never click reset, the handler never gets to run in this state, since
      the button is then disabled (`BlankLastNameKeepsButtonDisabled`). */
  lemma BlankLastNameIsReported(form: Form)
    requires WellFormed(form)
    requires AllSpace(form.fields.lastName)
    ensures var r := Step(form, Submit);
      && r.errors.lastName == LastNameRequired
      && r.alert == ErrorAlert(CorrectErrors)
      && r.fields == form.fields
      && !r.submitEnabled
  {
    assert HasError(ValidateAll(form.fields));
  }
}

=== FILE: location.dfy ===
/**
 The static location catalog of the registration form: for each country its
 dialing code and its states, and for each state its cities. JavaScript
 object literals keep their keys in insertion order, so every level is an
 ordered list of (key, value) entries.
 */
module Location {

  datatype Option<T> = None | Some(value: T)

  /** An ordered string-keyed record, as a JavaScript object literal. */
  type Entries<V> = seq<(string, V)>

  /** `Object.keys`: the keys in order. */
  function Keys<V>(m: Entries<V>): seq<string> {
    seq(|m|, i requires 0 <= i < |m| => m[i].0)
  }

  predicate UniqueKeys<V>(m: Entries<V>) {
    forall i, j :: 0 <= i < j < |m| ==> m[i].0 != m[j].0
  }

  /** `m[key]`: the value of the first entry with that key, or nothing when
      no entry has it. */
  function Lookup<V>(m: Entries<V>, key: string): (r: Option<V>)
    ensures r.None? <==> key !in Keys(m)
    ensures r.Some? ==> (key, r.value) in m
    ensures r.Some? ==> exists i :: 0 <= i < |m| && m[i] == (key, r.value) && key !in Keys(m[..i])
  {
    if |m| == 0 then None
    else if m[0].0 == key then
      assert m[..0] == [] && Keys(m)[0] == key;
      Some(m[0].1)
    else
      var r := Lookup(m[1..], key);
      LookupStep(m, key, r);
      r
  }

  /** The step case of `Lookup`: an entry found past the first one is found
      in the whole list, at one position further. */
  lemma LookupStep<V>(m: Entries<V>, key: string, r: Option<V>)
    requires |m| > 0 && m[0].0 != key
    requires r.None? <==> key !in Keys(m[1..])
    requires r.Some? ==> exists i :: 0 <= i < |m[1..]| && m[1..][i] == (key, r.value) && key !in Keys(m[1..][..i])
    ensures r.None? <==> key !in Keys(m)
    ensures r.Some? ==> exists i :: 0 <= i < |m| && m[i] == (key, r.value) && key !in Keys(m[..i])
  {
    assert Keys(m) == [m[0].0] + Keys(m[1..]);
    if r.Some? {
      var i :| 0 <= i < |m[1..]| && m[1..][i] == (key, r.value) && key !in Keys(m[1..][..i]);
      assert Keys(m[..i + 1]) == [m[0].0] + Keys(m[1..][..i]);
    }
  }

  /** With unique keys, looking up the key of any entry finds that entry's value. */
  lemma {:induction false} LookupUnique<V>(m: Entries<V>, i: nat)
    requires UniqueKeys(m) && i < |m|
    ensures Lookup(m, m[i].0) == Some(m[i].1)
  {
    if i > 0 {
      assert m[0].0 != m[i].0;
      assert m[1..][i - 1] == m[i];
      LookupUnique(m[1..], i - 1);
    }
  }

  datatype CountryInfo = CountryInfo(code: string, states: Entries<seq<string>>)

  /** The catalog in the order the country select lists it. */
  const Catalog: Entries<CountryInfo> := [
    ("India", CountryInfo("+91", [
      ("Gujarat", ["Vaghodia", "Vadodara", "Ahmedabad"]),
      ("Maharashtra", ["Mumbai", "Pune"])])),
    ("United States", CountryInfo("+1", [
      ("California", ["San Francisco", "Los Angeles"]),
      ("New York", ["New York City", "Buffalo"])]))
  ]

  /** The options of the country select, in catalog order. */
  function Countries(): (r: seq<string>)
    ensures r == ["India", "United States"]
    ensures forall c :: IsCountry(c) <==> c in r
  {
    Keys(Catalog)
  }

  predicate IsCountry(c: string) {
    c in Keys(Catalog)
  }

  /** The dialing code of a catalog country. */
  function DialingCode(c: string): (code: string)
    requires IsCountry(c)
    ensures exists i :: 0 <= i < |Catalog| && Catalog[i].0 == c && Catalog[i].1.code == code
    ensures |code| >= 2 && code[0] == '+' && forall i :: 1 <= i < |code| ==> '0' <= code[i] <= '9'
  {
    Lookup(Catalog, c).value.code
  }

  /** The state keys of a country, in order; empty for an unknown or unset country. */
  function StatesOf(c: string): (r: seq<string>)
    ensures !IsCountry(c) ==> r == []
    ensures forall info :: (c, info) in Catalog ==> r == Keys(info.states)
  {
    match Lookup(Catalog, c)
    case None => []
    case Some(info) => Keys(info.states)
  }

  /** The cities of a state of a country, in order; empty when either key is
      unknown or the state belongs to another country. */
  function CitiesOf(c: string, s: string): (r: seq<string>)
    ensures s !in StatesOf(c) ==> r == []
    ensures forall info, cities :: (c, info) in Catalog && (s, cities) in info.states ==> r == cities
  {
    match Lookup(Catalog, c)
    case None => []
    case Some(info) =>
      match Lookup(info.states, s)
      case None => []
      case Some(cities) => cities
  }

  /** Well-formedness of the catalog: keys are unique at both levels, every
      country has a state and every state has a city. */
  predicate WellFormedCatalog(m: Entries<CountryInfo>) {
    && UniqueKeys(m)
    && forall i :: 0 <= i < |m| ==>
         && |m[i].1.states| > 0
         && UniqueKeys(m[i].1.states)
         && forall j :: 0 <= j < |m[i].1.states| ==> |m[i].1.states[j].1| > 0
  }

  lemma CatalogWellFormed()
    ensures WellFormedCatalog(Catalog)
  {
  }

  /** Every country offered has at least one state, and every state offered
      for it has at least one city. */
  lemma EveryCountryHasStatesAndCities(c: string)
    requires IsCountry(c)
    ensures |StatesOf(c)| > 0
    ensures forall s :: s in StatesOf(c) ==> |CitiesOf(c, s)| > 0
  {
    CatalogWellFormed();
    var i :| 0 <= i < |Catalog| && Catalog[i].0 == c;
    LookupUnique(Catalog, i);
    var info := Catalog[i].1;
    forall s | s in StatesOf(c) ensures |CitiesOf(c, s)| > 0 {
      var j :| 0 <= j < |info.states| && info.states[j].0 == s;
      LookupUnique(info.states, j);
    }
  }
}

=== FILE: strength.dfy ===
/**
 The password-strength classifier: five independent criteria are counted
 and the count is mapped to one of three labels.
 */
module Strength {
  import opened Text

  datatype Level = Weak | Medium | Strong

  /** The five criteria: at least eight characters, an ASCII lower-case
      letter, an ASCII upper-case letter, an ASCII digit, and a character
      that is none of those three. */
  datatype Criteria = Criteria(long: bool, lower: bool, upper: bool, digit: bool, symbol: bool)

  predicate IsSymbol(c: char) {
    !IsLowerAscii(c) && !IsUpperAscii(c) && !IsDigit(c)
  }

  /** Every character meets one of the four character criteria, so a
      password meets one of them exactly when it is not empty; a long one
      always does. */
  function CriteriaOf(pw: string): (c: Criteria)
    ensures c.lower || c.upper || c.digit || c.symbol <==> pw != []
    ensures c.long ==> c.lower || c.upper || c.digit || c.symbol
  {
    assert pw != [] ==> IsLowerAscii(pw[0]) || IsUpperAscii(pw[0]) || IsDigit(pw[0]) || IsSymbol(pw[0]);
    Criteria(
      |pw| >= 8,
      exists i :: 0 <= i < |pw| && IsLowerAscii(pw[i]),
      exists i :: 0 <= i < |pw| && IsUpperAscii(pw[i]),
      exists i :: 0 <= i < |pw| && IsDigit(pw[i]),
      exists i :: 0 <= i < |pw| && IsSymbol(pw[i]))
  }

  function Bit(b: bool): nat {
    if b then 1 else 0
  }

  /** The number of criteria met: at most five, and five exactly when all are met. */
  function Score(c: Criteria): (n: nat)
    ensures n <= 5
    ensures n == 5 <==> c.long && c.lower && c.upper && c.digit && c.symbol
    ensures n == 0 <==> !c.long && !c.lower && !c.upper && !c.digit && !c.symbol
  {
    Bit(c.long) + Bit(c.lower) + Bit(c.upper) + Bit(c.digit) + Bit(c.symbol)
  }

  /** Score at most two is weak, three or four medium, anything else strong. */
  function Classify(score: nat): Level {
    if score <= 2 then Weak
    else if score == 3 || score == 4 then Medium
    else Strong
  }

  /** `passwordStrength`: weak for at most two criteria met, medium for
      three or four, and strong exactly when all five are met. */
  function PasswordStrength(pw: string): (l: Level)
    ensures l == Weak <==> Score(CriteriaOf(pw)) <= 2
    ensures l == Medium <==> 3 <= Score(CriteriaOf(pw)) <= 4
    ensures l == Strong <==> var c := CriteriaOf(pw); c.long && c.lower && c.upper && c.digit && c.symbol
  {
    Classify(Score(CriteriaOf(pw)))
  }

  /** The order of the labels. */
  function Rank(l: Level): nat {
    match l
    case Weak => 0
    case Medium => 1
    case Strong => 2
  }

  /** `a` meets every criterion `b` meets. */
  predicate Covers(a: Criteria, b: Criteria) {
    && (b.long ==> a.long)
    && (b.lower ==> a.lower)
    && (b.upper ==> a.upper)
    && (b.digit ==> a.digit)
    && (b.symbol ==> a.symbol)
  }

  /** Meeting more criteria never gives a lower score. */
  lemma ScoreMonotone(a: Criteria, b: Criteria)
    requires Covers(a, b)
    ensures Score(b) <= Score(a)
  {
  }

  /** A password that meets every criterion another one meets never gets a
      lower label than it. */
  lemma StrengthMonotone(p: string, q: string)
    requires Covers(CriteriaOf(p), CriteriaOf(q))
    ensures Rank(PasswordStrength(q)) <= Rank(PasswordStrength(p))
  {
    ScoreMonotone(CriteriaOf(p), CriteriaOf(q));
  }

  /** The empty password meets no criterion and is classified weak. */
  lemma EmptyPasswordIsWeak()
    ensures Score(CriteriaOf("")) == 0
    ensures PasswordStrength("") == Weak
  {
  }

  /** The labels the browser tests expect: "abc" is weak, "abcD1234" is
      medium and "StrongPass1!" is strong. */
  lemma SampleStrengths()
    ensures PasswordStrength("abc") == Weak
    ensures PasswordStrength("abcD1234") == Medium
    ensures PasswordStrength("StrongPass1!") == Strong
  {
    var p := "abcD1234";
    assert IsLowerAscii(p[0]) && IsUpperAscii(p[3]) && IsDigit(p[4]);
    assert !CriteriaOf(p).symbol;
    var q := "StrongPass1!";
    assert IsUpperAscii(q[0]) && IsLowerAscii(q[1]) && IsDigit(q[10]) && IsSymbol(q[11]);
    var a := "abc";
    assert IsLowerAscii(a[0]);
  }
}

=== FILE: text.dfy ===
/**
 String helpers the form's validators rely on: JavaScript's `trim`, the
 ASCII part of `toLowerCase`, `startsWith`, `split` on a one-character
 separator, and the character classes used by the validators' regular
 expressions (`\s`, `\d`, `[a-z]`, `[A-Z]`).
 */
module Text {

  /** The characters JavaScript counts as white space or line terminators:
      what `String.prototype.trim` strips and what the regex class `\s` matches. */
  predicate IsSpace(c: char) {
    || c == ' ' || c == '\t' || c == '\n' || c == '\U{000B}' || c == '\U{000C}' || c == '\r'
    || c == '\U{00A0}' || c == '\U{1680}' || ('\U{2000}' <= c <= '\U{200A}')
    || c == '\U{2028}' || c == '\U{2029}' || c == '\U{202F}' || c == '\U{205F}'
    || c == '\U{3000}' || c == '\U{FEFF}'
  }

  /** `\d` without the unicode flag: ASCII digits only. */
  predicate IsDigit(c: char) {
    '0' <= c <= '9'
  }

  predicate IsLowerAscii(c: char) {
    'a' <= c <= 'z'
  }

  predicate IsUpperAscii(c: char) {
    'A' <= c <= 'Z'
  }

  predicate AllDigits(s: string) {
    forall i :: 0 <= i < |s| ==> IsDigit(s[i])
  }

  predicate AllSpace(s: string) {
    forall i :: 0 <= i < |s| ==> IsSpace(s[i])
  }

  /** Strips leading white space. */
  function TrimStart(s: string): (r: string)
    ensures |r| <= |s| && r == s[|s| - |r|..]
    ensures r == [] || !IsSpace(r[0])
    ensures forall i :: 0 <= i < |s| - |r| ==> IsSpace(s[i])
  {
    if |s| > 0 && IsSpace(s[0]) then TrimStart(s[1..]) else s
  }

  /** Strips trailing white space. */
  function TrimEnd(s: string): (r: string)
    ensures |r| <= |s| && r == s[..|r|]
    ensures r == [] || !IsSpace(r[|r| - 1])
    ensures forall i :: |r| <= i < |s| ==> IsSpace(s[i])
  {
    if |s| > 0 && IsSpace(s[|s| - 1]) then TrimEnd(s[..|s| - 1]) else s
  }

  /** `r` is the slice `s[i..j]`, and only white space lies before and after it. */
  predicate SpaceFramed(s: string, r: string, i: int, j: int) {
    0 <= i <= j <= |s| && r == s[i..j] && AllSpace(s[..i]) && AllSpace(s[j..])
  }

  /** `String.prototype.trim`: the result is the part of `s` between its
      leading and its trailing white space; it is empty exactly when `s`
      is all white space, and otherwise starts and ends with a non-space. */
  function Trim(s: string): (r: string)
    ensures |r| <= |s|
    ensures r == [] <==> AllSpace(s)
    ensures r != [] ==> !IsSpace(r[0]) && !IsSpace(r[|r| - 1])
    ensures (s == [] || (!IsSpace(s[0]) && !IsSpace(s[|s| - 1]))) ==> r == s
    ensures exists i, j :: SpaceFramed(s, r, i, j)
  {
    TrimFacts(s);
    TrimSlice(s);
    TrimEnd(TrimStart(s))
  }

  lemma TrimFacts(s: string)
    ensures var r := TrimEnd(TrimStart(s));
      && (r == [] <==> AllSpace(s))
      && (r != [] ==> !IsSpace(r[0]))
      && ((s == [] || (!IsSpace(s[0]) && !IsSpace(s[|s| - 1]))) ==> r == s)
  {
    var t := TrimStart(s);
    var r := TrimEnd(t);
    assert r != [] ==> r[0] == t[0];
    if r == [] {
      assert t == [];
    }
    if s != [] && !IsSpace(s[0]) && !IsSpace(s[|s| - 1]) {
      assert t == s;
    }
  }

  /** What the two strips leave is a slice of `s` with white space only
      before and after it. */
  lemma TrimSlice(s: string)
    ensures exists i, j :: SpaceFramed(s, TrimEnd(TrimStart(s)), i, j)
  {
    var t := TrimStart(s);
    StripBoth(s, t, TrimEnd(t));
  }

  /** Stripping white space off the front of `s`, giving `t`, and then off
      the back of `t`, giving `r`, leaves a slice framed by white space. */
  lemma StripBoth(s: string, t: string, r: string)
    requires |t| <= |s| && t == s[|s| - |t|..]
    requires forall k :: 0 <= k < |s| - |t| ==> IsSpace(s[k])
    requires |r| <= |t| && r == t[..|r|]
    requires forall k :: |r| <= k < |t| ==> IsSpace(t[k])
    ensures exists i, j :: SpaceFramed(s, r, i, j)
  {
    var i := |s| - |t|;
    var j := i + |r|;
    assert r == s[i..j];
    assert AllSpace(s[..i]) by {
      forall k | 0 <= k < i ensures IsSpace(s[..i][k]) {
        assert s[..i][k] == s[k];
      }
    }
    assert AllSpace(s[j..]) by {
      forall k | 0 <= k < |s| - j ensures IsSpace(s[j..][k]) {
        assert s[j..][k] == t[|r| + k];
      }
    }
    assert SpaceFramed(s, r, i, j);
  }

  /** Trimming twice is trimming once. */
  lemma TrimIdempotent(s: string)
    ensures Trim(Trim(s)) == Trim(s)
  {
  }

  function LowerChar(c: char): char {
    if IsUpperAscii(c) then (c as int + 32) as char else c
  }

  /** `toLowerCase` restricted to ASCII letters: every upper-case ASCII
      letter becomes its lower-case partner, every other character stays. */
  function ToLower(s: string): (r: string)
    ensures |r| == |s|
    ensures forall i :: 0 <= i < |s| ==> !IsUpperAscii(r[i])
    ensures forall i :: 0 <= i < |s| && !IsUpperAscii(s[i]) ==> r[i] == s[i]
    ensures forall i :: 0 <= i < |s| && IsUpperAscii(s[i]) ==> IsLowerAscii(r[i]) && r[i] as int == s[i] as int + 32
  {
    seq(|s|, i requires 0 <= i < |s| => LowerChar(s[i]))
  }

  /** Lower-casing leaves white space where it was, and a string with no
      upper-case letter unchanged. */
  lemma ToLowerKeepsSpaces(s: string)
    ensures forall i :: 0 <= i < |s| ==> (IsSpace(ToLower(s)[i]) <==> IsSpace(s[i]))
    ensures (forall i :: 0 <= i < |s| ==> !IsUpperAscii(s[i])) ==> ToLower(s) == s
  {
  }

  /** `String.prototype.startsWith`. */
  predicate StartsWith(s: string, prefix: string) {
    |prefix| <= |s| && s[..|prefix|] == prefix
  }

  /** Position of the first occurrence of `c` in `s`. */
  function IndexOf(s: string, c: char): (k: nat)
    requires c in s
    ensures k < |s| && s[k] == c && c !in s[..k]
  {
    if s[0] == c then 0 else 1 + IndexOf(s[1..], c)
  }

  /** Joins the fields with the separator between each two of them. */
  function Join(parts: seq<string>, sep: char): string
    requires |parts| >= 1
  {
    if |parts| == 1 then parts[0] else parts[0] + [sep] + Join(parts[1..], sep)
  }

  /** A join starts with its first field, which runs to the end of the
      join or up to a separator. */
  lemma JoinFirstField(parts: seq<string>, sep: char)
    requires |parts| >= 1
    ensures StartsWith(Join(parts, sep), parts[0])
    ensures var n := |parts[0]|; n == |Join(parts, sep)| || Join(parts, sep)[n] == sep
  {
    if |parts| > 1 {
      var j := parts[0] + [sep] + Join(parts[1..], sep);
      assert j[..|parts[0]|] == parts[0];
      assert j[|parts[0]|] == sep;
    }
  }

  /** `String.prototype.split` on a one-character separator: the fields
      between the separators, none of them holding the separator, which
      joined back with it give `s` again. */
  function Split(s: string, sep: char): (parts: seq<string>)
    ensures |parts| >= 1
    ensures forall i :: 0 <= i < |parts| ==> sep !in parts[i]
    ensures Join(parts, sep) == s
    decreases |s|
  {
    if sep !in s then [s]
    else
      var k := IndexOf(s, sep);
      var rest := Split(s[k + 1..], sep);
      assert s == s[..k] + [sep] + s[k + 1..];
      [s[..k]] + rest
  }

  /** A string holding the separator exactly once splits into the text
      before it and the text after it. */
  lemma SplitOnce(s: string, sep: char, k: nat)
    requires k < |s| && s[k] == sep
    requires sep !in s[..k] && sep !in s[k + 1..]
    ensures Split(s, sep) == [s[..k], s[k + 1..]]
  {
    assert s[..k + 1] == s[..k] + [sep];
  }
}

=== FILE: validators.dfy ===
/**
 The per-field validators of the registration form. Each maps the field's
 current value (and, for the phone, the selected country) to the text of
 its error slot, the empty string meaning the field is valid.
 */
module Validators {
  import opened Text
  import opened Location

  const FirstNameRequired := "First name is required."
  const LastNameRequired := "Last name is required."
  const EmailInvalid := "Enter a valid email address."
  const EmailDisposable := "Disposable email domains are not allowed."
  const PhoneRequired := "Phone number is required."
  const PhoneInvalid := "Enter a valid phone number with country code."
  const GenderRequired := "Please select at least one gender."
  const PasswordTooShort := "Password must be at least 8 characters."
  const ConfirmRequired := "Please confirm your password."
  const ConfirmMismatch := "Passwords do not match."
  const TermsRequired := "You must agree to the Terms & Conditions."

  /** The sample list of throwaway-address domains. */
  const DisposableDomains: seq<string> :=
    ["tempmail.com", "10minutemail.com", "mailinator.com", "yopmail.com", "guerrillamail.com"]

  /** The error text for a field whose only rule is "not blank". */
  function RequiredText(value: string, message: string): (r: string)
    requires message != ""
    ensures r == "" <==> exists i :: 0 <= i < |value| && !IsSpace(value[i])
    ensures r != "" ==> r == message
  {
    if Trim(value) != "" then "" else message
  }

  /** First name: an error exactly when the value is nothing but white space. */
  function ValidateFirstName(value: string): (r: string)
    ensures r == "" <==> exists i :: 0 <= i < |value| && !IsSpace(value[i])
    ensures r != "" ==> r == FirstNameRequired
  {
    RequiredText(value, FirstNameRequired)
  }

  /** Last name: an error exactly when the value is nothing but white space. */
  function ValidateLastName(value: string): (r: string)
    ensures r == "" <==> exists i :: 0 <= i < |value| && !IsSpace(value[i])
    ensures r != "" ==> r == LastNameRequired
  {
    RequiredText(value, LastNameRequired)
  }

  // ---------------------------------------------------------------- email

  /** A character the email pattern's class `[^\s@]` accepts. */
  predicate EmailChar(c: char) {
    !IsSpace(c) && c != '@'
  }

  predicate EmailChars(s: string) {
    forall i :: 0 <= i < |s| ==> EmailChar(s[i])
  }

  /** `v` is `local@a.b` with each of the three parts a non-empty run of
      `[^\s@]`: one way the pattern `^[^\s@]+@[^\s@]+\.[^\s@]+$` can match. */
  ghost predicate EmailSplit(v: string, local: string, a: string, b: string) {
    && |local| > 0 && |a| > 0 && |b| > 0
    && EmailChars(local) && EmailChars(a) && EmailChars(b)
    && v == local + ['@'] + a + ['.'] + b
  }

  /** `v` matches `^[^\s@]+@[^\s@]+\.[^\s@]+$`. */
  ghost predicate MatchesEmailPattern(v: string) {
    exists local, a, b :: EmailSplit(v, local, a, b)
  }

  /** A dot in the domain with text on both sides of it. */
  predicate HasInnerDot(d: string) {
    exists j :: 0 < j < |d| - 1 && d[j] == '.'
  }

  /** The email pattern as a direct check: no white space, exactly one `@`
      with text before it, and a dot strictly inside the text after it. */
  predicate IsEmailSyntax(v: string) {
    var parts := Split(v, '@');
    && (forall i :: 0 <= i < |v| ==> !IsSpace(v[i]))
    && |parts| == 2
    && |parts[0]| > 0
    && HasInnerDot(parts[1])
  }

  /** `value.split("@")[1] || ""`: the text between the first and the second
      `@` (or the end), and nothing when there is no `@`, where `split`
      gives the one field `v` and index 1 is undefined. */
  function EmailDomain(v: string): (d: string)
    ensures '@' !in d
    ensures '@' !in v ==> d == []
    ensures '@' in v ==> StartsWith(v[IndexOf(v, '@') + 1..], d)
    ensures '@' in v ==> var k := IndexOf(v, '@'); k + 1 + |d| == |v| || v[k + 1 + |d|] == '@'
  {
    var parts := Split(v, '@');
    if '@' in v then
      var k := IndexOf(v, '@');
      var rest := Split(v[k + 1..], '@');
      assert parts == [v[..k]] + rest;
      JoinFirstField(rest, '@');
      parts[1]
    else
      ""
  }

  /** What the email validator examines: the trimmed value, lower-cased. */
  function NormalizeEmail(raw: string): string {
    ToLower(Trim(raw))
  }

  /** Splitting at the only `@` of a matching address gives its local part
      and its domain. */
  lemma EmailSplitFields(v: string, local: string, a: string, b: string)
    requires EmailSplit(v, local, a, b)
    ensures Split(v, '@') == [local, a + ['.'] + b]
    ensures EmailDomain(v) == a + ['.'] + b
  {
    var k := |local|;
    assert v[..k] == local;
    assert v[k + 1..] == a + ['.'] + b;
    SplitOnce(v, '@', k);
  }

  /** The direct check agrees with the pattern, in both directions. */
  lemma EmailSyntaxMatchesPattern(v: string)
    ensures IsEmailSyntax(v) <==> MatchesEmailPattern(v)
  {
    if IsEmailSyntax(v) {
      EmailSyntaxGivesSplit(v);
    }
    if MatchesEmailPattern(v) {
      var local, a, b :| EmailSplit(v, local, a, b);
      EmailSplitGivesSyntax(v, local, a, b);
    }
  }

  lemma EmailSyntaxGivesSplit(v: string)
    requires IsEmailSyntax(v)
    ensures MatchesEmailPattern(v)
  {
    var parts := Split(v, '@');
    var local, d := parts[0], parts[1];
    assert v == local + ['@'] + d by {
      assert Join(parts, '@') == v;
      assert Join(parts[1..], '@') == d;
    }
    var j :| 0 < j < |d| - 1 && d[j] == '.';
    var a, b := d[..j], d[j + 1..];
    assert d == a + ['.'] + b;
    assert EmailChars(local) by {
      forall i | 0 <= i < |local| ensures EmailChar(local[i]) {
        assert local[i] == v[i];
      }
    }
    assert EmailChars(d) by {
      forall i | 0 <= i < |d| ensures EmailChar(d[i]) {
        assert d[i] == v[|local| + 1 + i];
        assert d[i] != '@' by { assert '@' !in d; }
      }
    }
    assert EmailChars(a) && EmailChars(b) by {
      forall i | 0 <= i < |a| ensures EmailChar(a[i]) { assert a[i] == d[i]; }
      forall i | 0 <= i < |b| ensures EmailChar(b[i]) { assert b[i] == d[j + 1 + i]; }
    }
    assert EmailSplit(v, local, a, b);
  }

  lemma EmailSplitGivesSyntax(v: string, local: string, a: string, b: string)
    requires EmailSplit(v, local, a, b)
    ensures IsEmailSyntax(v)
  {
    EmailSplitFields(v, local, a, b);
    var d := a + ['.'] + b;
    assert d[|a|] == '.';
    assert HasInnerDot(d);
    forall i | 0 <= i < |v| ensures !IsSpace(v[i]) {
      if i < |local| {
        assert v[i] == local[i];
      } else if i == |local| {
        assert v[i] == '@';
      } else if i < |local| + 1 + |a| {
        assert v[i] == a[i - |local| - 1];
      } else if i == |local| + 1 + |a| {
        assert v[i] == '.';
      } else {
        assert v[i] == b[i - |local| - 2 - |a|];
      }
    }
  }

  /** `v` matches the pattern and its domain is not a disposable one. */
  ghost predicate AcceptedEmail(v: string) {
    exists local, a, b :: EmailSplit(v, local, a, b) && a + ['.'] + b !in DisposableDomains
  }

  /** Email: the trimmed, lower-cased value is checked against the pattern
      first, and only a matching value has its domain looked up. */
  function ValidateEmail(raw: string): (r: string)
    ensures r == "" || r == EmailInvalid || r == EmailDisposable
  {
    var v := NormalizeEmail(raw);
    if !IsEmailSyntax(v) then EmailInvalid
    else if EmailDomain(v) in DisposableDomains then EmailDisposable
    else ""
  }

  /** The email validator against the pattern: a value that does not match
      is invalid whatever its domain; a matching value is rejected as
      disposable exactly when the text after its `@` is on the list, and is
      accepted otherwise. */
  lemma EmailValidation(raw: string)
    ensures ValidateEmail(raw) == EmailInvalid <==> !MatchesEmailPattern(NormalizeEmail(raw))
    ensures forall local, a, b {:trigger EmailSplit(NormalizeEmail(raw), local, a, b)} ::
      EmailSplit(NormalizeEmail(raw), local, a, b) ==>
        (ValidateEmail(raw) == EmailDisposable <==> a + ['.'] + b in DisposableDomains)
    ensures ValidateEmail(raw) == "" <==> AcceptedEmail(NormalizeEmail(raw))
  {
    var v := NormalizeEmail(raw);
    EmailSyntaxMatchesPattern(v);
    EmailDomainOfMatch(v);
  }

  lemma EmailDomainOfMatch(v: string)
    ensures forall local, a, b {:trigger EmailSplit(v, local, a, b)} ::
      EmailSplit(v, local, a, b) ==> EmailDomain(v) == a + ['.'] + b
  {
    forall local, a, b | EmailSplit(v, local, a, b) ensures EmailDomain(v) == a + ['.'] + b {
      EmailSplitFields(v, local, a, b);
    }
  }

  // ---------------------------------------------------------------- phone

  /** `v` is `+`, one to three digits, at most one white-space character,
      then six to fifteen digits: one way `^\+\d{1,3}\s?\d{6,15}$` can match. */
  ghost predicate PhoneSplit(v: string, cc: string, sep: string, num: string) {
    && 1 <= |cc| <= 3 && AllDigits(cc)
    && (sep == [] || (|sep| == 1 && IsSpace(sep[0])))
    && 6 <= |num| <= 15 && AllDigits(num)
    && v == ['+'] + cc + sep + num
  }

  /** `v` matches `^\+\d{1,3}\s?\d{6,15}$`. */
  ghost predicate MatchesPhonePattern(v: string) {
    exists cc, sep, num :: PhoneSplit(v, cc, sep, num)
  }

  /** The digits after the `+` with the white space right after digit `k`. */
  predicate SpacedAt(v: string, k: nat) {
    && |v| > k + 1
    && AllDigits(v[1..k + 1])
    && IsSpace(v[k + 1])
    && AllDigits(v[k + 2..])
    && 6 <= |v| - (k + 2) <= 15
  }

  /** The phone pattern as a direct check: a `+` followed either by seven to
      eighteen digits, or by one to three digits, a white-space character
      and six to fifteen digits. */
  predicate IsPhoneSyntax(v: string) {
    && |v| >= 1 && v[0] == '+'
    && ((AllDigits(v[1..]) && 7 <= |v| - 1 <= 18) || SpacedAt(v, 1) || SpacedAt(v, 2) || SpacedAt(v, 3))
  }

  /** The direct check agrees with the pattern, in both directions. */
  lemma PhoneSyntaxMatchesPattern(v: string)
    ensures IsPhoneSyntax(v) <==> MatchesPhonePattern(v)
  {
    if IsPhoneSyntax(v) {
      PhoneSyntaxGivesSplit(v);
    }
    if MatchesPhonePattern(v) {
      var cc, sep, num :| PhoneSplit(v, cc, sep, num);
      PhoneSplitGivesSyntax(v, cc, sep, num);
    }
  }

  lemma PhoneSyntaxGivesSplit(v: string)
    requires IsPhoneSyntax(v)
    ensures MatchesPhonePattern(v)
  {
    if AllDigits(v[1..]) && 7 <= |v| - 1 <= 18 {
      var d := v[1..];
      var k := if |d| <= 16 then 1 else |d| - 15;
      var cc, num := d[..k], d[k..];
      assert AllDigits(cc) by {
        forall i | 0 <= i < |cc| ensures IsDigit(cc[i]) { assert cc[i] == d[i]; }
      }
      assert AllDigits(num) by {
        forall i | 0 <= i < |num| ensures IsDigit(num[i]) { assert num[i] == d[k + i]; }
      }
      assert v == ['+'] + cc + [] + num;
      assert PhoneSplit(v, cc, [], num);
    } else {
      var k := if SpacedAt(v, 1) then 1 else if SpacedAt(v, 2) then 2 else 3;
      var cc, sep, num := v[1..k + 1], [v[k + 1]], v[k + 2..];
      assert v == ['+'] + cc + sep + num;
      assert PhoneSplit(v, cc, sep, num);
    }
  }

  lemma PhoneSplitGivesSyntax(v: string, cc: string, sep: string, num: string)
    requires PhoneSplit(v, cc, sep, num)
    ensures IsPhoneSyntax(v)
  {
    var k := |cc|;
    assert v[1..k + 1] == cc;
    if sep == [] {
      assert v[1..] == cc + num;
      assert AllDigits(v[1..]) by {
        forall i | 0 <= i < |v[1..]| ensures IsDigit(v[1..][i]) {
          if i < k {
            assert v[1..][i] == cc[i];
          } else {
            assert v[1..][i] == num[i - k];
          }
        }
      }
    } else {
      assert v[k + 1] == sep[0];
      assert v[k + 2..] == num;
      assert SpacedAt(v, k);
    }
  }

  /** The error for a phone that does not start with the selected country's code. */
  function PrefixMessage(code: string): string {
    "Phone must start with " + code + "."
  }

  /** Phone: blank first, then the selected country's dialing code as a
      prefix, and only then the overall pattern. The country select only
      offers catalog countries, so an unset country is the only other value. */
  function ValidatePhone(raw: string, country: string): (r: string)
    requires country == "" || IsCountry(country)
    ensures r == PhoneRequired <==> AllSpace(raw)
    ensures !AllSpace(raw) && country != "" && !StartsWith(Trim(raw), DialingCode(country))
      ==> r == PrefixMessage(DialingCode(country))
    ensures r == "" || r == PhoneRequired || r == PhoneInvalid || (country != "" && r == PrefixMessage(DialingCode(country)))
  {
    var v := Trim(raw);
    PrefixMessageDistinct(country);
    if v == "" then PhoneRequired
    else if country != "" && !StartsWith(v, DialingCode(country)) then PrefixMessage(DialingCode(country))
    else if !IsPhoneSyntax(v) then PhoneInvalid
    else ""
  }

  /** The phone validator against the pattern: once the value is not blank
      and carries the selected country's code, it is accepted exactly when
      the trimmed value matches the pattern, and is otherwise invalid. */
  lemma PhoneValidation(raw: string, country: string)
    requires country == "" || IsCountry(country)
    ensures ValidatePhone(raw, country) == PhoneInvalid <==>
      && !AllSpace(raw)
      && (country == "" || StartsWith(Trim(raw), DialingCode(country)))
      && !MatchesPhonePattern(Trim(raw))
    ensures ValidatePhone(raw, country) == "" <==>
      && !AllSpace(raw)
      && (country == "" || StartsWith(Trim(raw), DialingCode(country)))
      && MatchesPhonePattern(Trim(raw))
  {
    var v := Trim(raw);
    PhoneSyntaxMatchesPattern(v);
    PrefixMessageDistinct(country);
    var prefixed := country == "" || StartsWith(v, DialingCode(country));
    assert ValidatePhone(raw, country) ==
      if v == "" then PhoneRequired
      else if !prefixed then PrefixMessage(DialingCode(country))
      else if !IsPhoneSyntax(v) then PhoneInvalid
      else "";
  }

  /** The three phone errors read differently for any dialing code that
      ends in a digit. */
  lemma PhoneMessagesDistinct(code: string)
    requires code != [] && IsDigit(code[|code| - 1])
    ensures PrefixMessage(code) != PhoneRequired
    ensures PrefixMessage(code) != PhoneInvalid
    ensures PrefixMessage(code) != ""
  {
    var m := PrefixMessage(code);
    assert m[|m| - 2] == code[|code| - 1];
    assert PhoneRequired[|PhoneRequired| - 2] == 'd';
    assert PhoneInvalid[|PhoneInvalid| - 2] == 'e';
  }

  lemma PrefixMessageDistinct(country: string)
    requires country == "" || IsCountry(country)
    ensures country != "" ==>
      var m := PrefixMessage(DialingCode(country));
      m != PhoneRequired && m != PhoneInvalid && m != ""
  {
    if country != "" {
      PhoneMessagesDistinct(DialingCode(country));
    }
  }

  // --------------------------------------------------- the remaining fields

  /** Gender: an error exactly when no option of the group is checked. */
  function ValidateGender(checked: set<string>): (r: string)
    ensures r == "" <==> checked != {}
    ensures r != "" ==> r == GenderRequired
  {
    if |checked| > 0 then "" else GenderRequired
  }

  /** Password: no error when empty, too short from one to seven
      characters, no error from eight on. */
  function ValidatePassword(pw: string): (r: string)
    ensures r == "" <==> pw == [] || |pw| >= 8
    ensures r != "" ==> r == PasswordTooShort
  {
    if pw == "" then ""
    else if |pw| < 8 then PasswordTooShort
    else ""
  }

  /** Confirmation: an error exactly when a password is given and the
      confirmation is either missing or different; which message depends
      on whether it is missing. */
  function ValidateConfirmPassword(pw: string, confirm: string): (r: string)
    ensures r != "" <==> pw != [] && confirm != pw
    ensures r == ConfirmRequired <==> pw != [] && confirm == []
    ensures r == ConfirmMismatch <==> pw != [] && confirm != [] && confirm != pw
  {
    if confirm == "" && pw != "" then ConfirmRequired
    else if confirm != "" && pw != "" && confirm != pw then ConfirmMismatch
    else ""
  }

  /** Terms: an error exactly when the box is not checked. */
  function ValidateTerms(checked: bool): (r: string)
    ensures r == "" <==> checked
    ensures r != "" ==> r == TermsRequired
  {
    if checked then "" else TermsRequired
  }
}
